=== FILE: README.md ===
# Crossword constraint solver, modelled in Dafny

This project models the constraint-satisfaction engine of `CrosswordCreator`
in `crossword/generate.py`. The engine fills the slots ("variables") of a
crossword grid with words from a vocabulary. It proceeds in four steps:

1. Every slot's domain starts as the whole vocabulary.
2. Node consistency removes words of the wrong length.
3. AC-3 makes every crossing arc-consistent.
4. A backtracking search fills the slots. It chooses the next slot by the
   minimum-remaining-values rule, breaking ties by degree.

The engine can also lay an assignment out as a letter grid.

The modules follow the program's structure:

- `Wrappers` (`wrappers.dfy`): `Option`.
- `Crosswords` (`crossword.dfy`): the puzzle structure, taken as given. It holds the slots (`Var`) in their iteration order, the vocabulary, the crossing map `overlaps`, `Neighbors`, and for each slot the order in which its neighbours are visited. `WellFormed` collects the invariants the structure's parser establishes. The parser is not part of this model.
- `Assignments` (`assignments.dfy`): assignments, `consistent` and `assignment_complete`.
- `Domains` (`domains.dfy`): the domain store, `__init__`'s initial domains, `enforce_node_consistency` and `revise`.
- `ArcConsistency` (`ac3.dfy`): `ac3` with no initial arcs, as a worklist recursion bounded by fuel. It includes a proof that, on a puzzle with at least one crossing where every crossed slot has at least two crossings, the worklist never drains, so `ac3` returns `False` or never returns.
- `SquareExample` (`square.dfy`): a 2x2 grid on which `ac3` never returns, as an instance of that proof.
- `Heuristics` (`heuristics.dfy`): `select_unassigned_variable` and `order_domain_values`.
- `Search` (`search.dfy`): `backtrack` and `solve`.
- `Grid` (`grid.dfy`): `letter_grid`.

Some things the solver treats as unknown or unspecified are modelled as follows:

- **Set iteration order.** Python iterates sets and dicts in an order the model does not know. The slots are visited in the order of the sequence `Crossword.variables`. The neighbours of a slot are visited in the order of `Crossword.neighborOrder`, one sequence per slot; `WellFormed` requires it to list each neighbour exactly once (`Crosswords.NeighborListFaithful`). The loops over words and over the entries of an assignment pick their next element with `:|`, so any order is allowed.
- **Crossings.** A pair of slots that does not cross has no key in `overlaps`. That is how the model represents the structure's `None`.
- **Python exceptions.** The program would raise an `IndexError` or `KeyError` in some states. Those states are excluded by preconditions; these are the invariants the solver itself keeps (`ArcReady`, `Indexable`, `VarSet(cw) <= d.Keys`), and `Grid.Fits` for `letter_grid`, which every consistent assignment of the puzzle's slots meets (`Grid.ConsistentFits`).

Where the code does not do what its own docstrings and names promise, the model follows the code:

- **Distinct words.** `consistent` collects the assigned words in `assigned_words`, evidently for a repeated-word test (`crossword/generate.py:184-192`). The test itself checks membership in `assigned_position`, which is never filled (`crossword/generate.py:190`), so a repeated word is never rejected. `Assignments.Consistent` has no distinctness test, and `Assignments.RepeatedWordIsConsistent` exhibits a solution that repeats a word.
- **Completeness.** The `assignment_complete` docstring calls an assignment complete when it assigns a value to each crossword variable (`crossword/generate.py:170-172`). The code only checks that no value is `None` (`Assignments.AssignmentCompleteIgnoresMissingSlots`). `backtrack` decides completeness by comparing sizes instead.
- **AC-3 termination.** The `ac3` docstring promises `True` once arc consistency is enforced (`crossword/generate.py:144-150`). `ac3` re-enqueues the neighbours of `x` even when `revise` removed nothing (`crossword/generate.py:164-166`). On any puzzle with crossings whose crossed slots all have two or more crossings, the worklist never empties, so `ac3` returns `False` or never returns (`ArcConsistency.Ac3NeverSucceeds`). If the domains are already arc-consistent, it never returns (`ArcConsistency.Ac3DivergesWithoutDeadEnds`).
- **Empty domains.** The `ac3` docstring promises `True` only when no domain is empty (`crossword/generate.py:149-150`). A slot that crosses nothing is never revised. So the empty domain of such a slot never makes `ac3` return `False`, and `ac3` can still return `True` (`ArcConsistency.EmptyDomainPassesAc3`). The search then finds no word for that slot.

## Model

| member | source | states |
|---|---|---|
| Domains.InitialDomains | crossword/generate.py:13-16 | every slot, and nothing else, gets a domain, and each domain is the whole vocabulary |
| Grid.LetterGrid | crossword/generate.py:18-32 | the grid is height rows of width cells. A cell is `None` exactly when no assigned word reaches it. Otherwise it holds the letter of some word reaching it. When assigned words agree on shared cells, letter `k` of each word can be read at its cell |
| Grid.Write | crossword/generate.py:27-31 | writing the first `n` letters of a word into its slot changes exactly the cells those letters reach, each to its own letter, and keeps the grid's shape |
| Grid.WriteStep | crossword/generate.py:29-31 | writing letter `n-1` adds exactly that letter's cell to the cells written so far |
| Grid.OffsetInverts | crossword/generate.py:29-30 | letter `k` of a slot lands at (`i+k`, `j`) going down and at (`i`, `j+k`) going across. A cell's offset in the slot is `k` exactly when letter `k` lands there |
| Grid.ConsistentIsCoherent | crossword/generate.py:18-32 | if crossings follow the grid geometry, a consistent assignment writes one letter into every shared cell, so its grid shows every word |
| Grid.ConsistentFits | crossword/generate.py:27-31 | every word of a consistent assignment of the puzzle's slots lies inside the grid, so `letter_grid` can write all of its letters |
| Grid.SharedCellAgrees | crossword/generate.py:195-200 | two assigned slots reaching the same cell cross there, so consistency gives them the same letter in it |
| Domains.EnforceNodeConsistency | crossword/generate.py:96-110 | after the filter, every word of every slot's domain has the slot's length. Every word of the right length is kept, domains only shrink, and entries of non-slots are untouched |
| Domains.NodeConsistencyIdempotent | crossword/generate.py:96-110 | applying node consistency twice is the same as applying it once |
| Domains.NodeConsistencyKeepsSolutions | crossword/generate.py:96-110 | a solution whose words lie in the domains still lies in them after node consistency |
| Domains.NodeConsistentIsIndexable | crossword/generate.py:96-110 | after node consistency, the overlap indices of every crossing can be read in every word of both domains |
| Domains.Revise | crossword/generate.py:112-142 | with no overlap: reports no change and changes nothing. Otherwise: the arc becomes consistent, supported words are kept, the domain of `x` only shrinks, every other domain is unchanged, and the result is true exactly when a word was removed |
| Domains.ReviseConsistentArcIsIdle | crossword/generate.py:112-142 | revising an already arc-consistent arc reports no change and changes nothing |
| Domains.ReviseIdempotent | crossword/generate.py:112-142 | a second revision of the same arc changes nothing |
| Domains.ReviseKeepsSolutions | crossword/generate.py:112-142 | revision removes no word used by a solution lying in the domains |
| Domains.ReviseKeepsReverseArc | crossword/generate.py:112-142 | revising (x, y) keeps the arc (y, x) consistent if it was |
| Crosswords.NeighborListFaithful | crossword/generate.py:155 | the order in which a slot's neighbours are visited lists each neighbour exactly once, and nothing else |
| ArcConsistency.InitialArcs | crossword/generate.py:152-157 | the initial worklist holds exactly the ordered pairs of crossing slots |
| ArcConsistency.Requeue | crossword/generate.py:164-166 | the arcs appended after popping (x, y) are exactly (z, x) for the neighbours z of x other than y |
| ArcConsistency.StepKeepsPending | crossword/generate.py:159-166 | after one pop, revise and requeue, every crossing arc is still consistent or still queued |
| ArcConsistency.Ac3Run | crossword/generate.py:159-167 | domains only shrink and keep every solution. On `False` some domain is empty. On `True` every crossing arc is consistent |
| ArcConsistency.Ac3 | crossword/generate.py:143-167 | the same outcome contract, for a run started from every crossing arc |
| ArcConsistency.NeverDrains | crossword/generate.py:159-166 | started from a non-empty queue of crossing arcs, if the domains are arc-consistent and every crossed slot has two or more crossings, the worklist never empties and the domains never change, however much fuel is given |
| ArcConsistency.Ac3DivergesWithoutDeadEnds | crossword/generate.py:143-167 | on such a puzzle with at least one crossing, `ac3` never returns |
| ArcConsistency.NeverSucceeds | crossword/generate.py:159-167 | on a puzzle where every crossed slot has two or more crossings, a loop started from a non-empty queue of crossing arcs never returns `True`, whatever the domains and the fuel |
| ArcConsistency.StepOn | crossword/generate.py:160-166 | on such a puzzle, one iteration either empties a domain and returns `False`, or continues from the revised domains and a queue that is again non-empty and holds only crossing arcs |
| ArcConsistency.Ac3NeverSucceeds | crossword/generate.py:143-167 | on such a puzzle with at least one crossing, `ac3` returns `False` or never returns |
| ArcConsistency.EmptyDomainPassesAc3 | crossword/generate.py:143-167 | a one-slot puzzle whose only word is too short: node consistency empties the slot's domain, and `ac3` still returns `True` |
| SquareExample.SquareAc3Diverges | crossword/generate.py:143-167 | on a 2x2 all-crossing grid with the word "AA", `ac3` never returns |
| Assignments.AssignmentComplete | crossword/generate.py:169-177 | true exactly when no slot's value is `None` |
| Assignments.AssignmentCompleteIgnoresMissingSlots | crossword/generate.py:169-177 | the empty assignment counts as complete on a puzzle that has slots |
| Assignments.Consistent | crossword/generate.py:179-202 | true exactly when every assigned word has its slot's length and every two assigned crossing slots agree at their overlap |
| Assignments.ConsistentPrefix | crossword/generate.py:179-202 | every part of a consistent assignment is consistent |
| Assignments.RepeatedWordIsConsistent | crossword/generate.py:184-191 | two slots that do not cross may both hold "CAT": a full solution may repeat a word |
| Assignments.FullBySize | crossword/generate.py:261-262 | for an assignment of the puzzle's own slots, equal size means every slot is assigned |
| Heuristics.CountConflicts | crossword/generate.py:223-225 | the counting loop returns the number of neighbour words that disagree with the word at the crossing |
| Heuristics.Eliminations | crossword/generate.py:218-225 | the neighbour loop for one word: the total is the word's elimination count, and some unassigned neighbour is visited exactly when the slot has one |
| Heuristics.ScoreWord | crossword/generate.py:218-226 | a word gets a count exactly when the slot has an unassigned neighbour. The count is the sum of disagreeing words over the unassigned neighbours. Other words' entries are unchanged |
| Heuristics.ScoreWords | crossword/generate.py:217-226 | the dictionary's keys are exactly the domain's words when the slot has an unassigned neighbour, and none otherwise. Each key maps to its elimination count and appears once in insertion order |
| Heuristics.InsertByCount | crossword/generate.py:228-229 | inserting into a list sorted by count gives a sorted permutation of the list plus the word |
| Heuristics.SortByCount | crossword/generate.py:228-229 | the result is a permutation of the input, ascending by count |
| Heuristics.PermutationKeepsNoDuplicates | crossword/generate.py:228-232 | a permutation of a repeat-free list is repeat-free |
| Heuristics.OrderDomainValues | crossword/generate.py:204-232 | no repeats. A word appears exactly when it is in the domain and the slot has an unassigned neighbour, so the result is a permutation of the domain in that case and empty otherwise. The list is in ascending order of elimination count |
| Heuristics.SelectFrom | crossword/generate.py:244-250 | `None` exactly when every listed slot is assigned. Otherwise: an unassigned listed slot that no unassigned slot beats on (domain size, then degree), and the first such in list order |
| Heuristics.SelectUnassignedVariable | crossword/generate.py:235-250 | `None` exactly when every slot is assigned. Otherwise an unassigned slot with the fewest remaining values and, among those, the most neighbours |
| Search.Backtrack | crossword/generate.py:251-276 | a result assigns every slot and extends `a`. If `a` is consistent, the result is consistent with new words from the domains. `None` only when no such completion exists |
| Search.TryWords | crossword/generate.py:266-276 | trying the domain words of the chosen slot gives a completion, or `None` only when no word leads to one |
| Search.TryWord | crossword/generate.py:268-275 | one extension: a result is a completion of `a`. `None` means the extended assignment has no completion, whether it was inconsistent or the search below it failed |
| Search.ExhaustedMeansHopeless | crossword/generate.py:266-276 | if no domain word of an open slot leads to a completion, the assignment has none |
| Search.InconsistentIsHopeless | crossword/generate.py:272-273 | an inconsistent assignment has no completion, so the search may skip it |
| Search.ExtensionCompletes | crossword/generate.py:268-275 | a completion of an extension by a domain word is a completion of the original |
| Search.Solve | crossword/generate.py:88-94 | `halted` is true exactly when AC-3 on the node-consistent domains finishes within `fuel` iterations. Then a result is a solution drawn from the vocabulary, and `None` is returned exactly when no such solution exists. When AC-3 has not finished, no result is returned |

## Left out

- `print` (`crossword/generate.py:34-45`) is left out: it only writes to the terminal.
- `save` (`crossword/generate.py:47-86`) is left out: it does image drawing, font loading and floating-point text centring.
- `main` (`crossword/generate.py:277-303`) is left out: it handles command-line arguments and files.
- The structure and word-file parsing of the `crossword` module is not part of this model. Its results are inputs, with `WellFormed` (and `Grid.GeometryMatches` for the grid lemma) standing for the invariants the parser establishes.
- `ac3` called with a non-empty `arcs` is left out: that path never binds `queue` and raises `NameError`.
- ArcConsistency.Ac3: termination is not claimed, and it cannot be. The loop is a recursion bounded by a `fuel` argument, and the contracts are partial correctness only. `OutOfFuel` stands for a run that had not stopped after `fuel` pops.
- Search.Solve: a run whose AC-3 does not stop within `fuel` pops is reported as not halted with no result. The real program would hang.
- Search.Backtrack: a result is consistent only when the incoming assignment is. The size test returns a full incoming assignment unchecked, so for an inconsistent full input the result is that input. `solve` starts from the empty assignment, which is consistent.
- Search.Backtrack: which solution is returned depends on set iteration order. The contract states soundness and completeness only.
- Heuristics.SortByCount: the stability of Python's `sorted` is not stated. Only the permutation and the ascending order are.
- Grid.LetterGrid: when two assigned words disagree on a cell, which one's letter survives depends on dict order. The contract states only that the letter comes from one of them.
- The distinct-word test of `consistent` (`crossword/generate.py:190-191`) is not modelled as a test. It can never fail, because the set it consults is never filled.
- Crosswords.NeighborList: each slot has one neighbour order, the same at every visit. Python builds a new set at each call of `neighbors`, and its iteration order is not promised to be the same each time.

=== FILE: ac3.dfy ===
/**
 * AC-3 as the solver runs it when no initial arcs are given: a FIFO
 * worklist seeded with every crossing arc, revised one at a time.
 *
 * After an arc `(x, y)` is popped and revised, every neighbour `z` of `x`
 * other than `y` is queued as `(z, x)` whether or not the revision removed
 * anything. The loop therefore need not end; it is modelled with a bound
 * `fuel` on the number of iterations and an `OutOfFuel` outcome, and only
 * what holds when it does end is stated.
 */
module ArcConsistency {
  import opened Crosswords
  import opened Assignments
  import opened Domains

  /** An ordered pair of slots: revise the first against the second. */
  type Arc = (Var, Var)

  /** How the worklist loop ended: returned `ok`, or was still running when the fuel ran out. */
  datatype Ac3Outcome = Finished(ok: bool, domains: Domains) | OutOfFuel(domains: Domains)

  /** The arcs `(x, n)` for the slots `n` of `ns` that cross `x`, in the order of `ns`. */
  function ArcsTo(cw: Crossword, x: Var, ns: seq<Var>): (q: seq<Arc>)
    ensures forall a, b :: (a, b) in q <==> a == x && b in ns && (a, b) in cw.overlaps
  {
    if ns == [] then []
    else (if (x, ns[0]) in cw.overlaps then [(x, ns[0])] else []) + ArcsTo(cw, x, ns[1..])
  }

  /** The crossing arcs leaving the slots of `vs`, slot by slot. */
  function ArcsFrom(cw: Crossword, vs: seq<Var>): (q: seq<Arc>)
    requires WellFormed(cw)
    ensures forall a, b :: (a, b) in q <==> a in vs && b in cw.variables && (a, b) in cw.overlaps
  {
    if vs == [] then []
    else
      NeighborListFaithful(cw, vs[0]);
      ArcsTo(cw, vs[0], NeighborList(cw, vs[0])) + ArcsFrom(cw, vs[1..])
  }

  /** The initial worklist: every crossing arc, in both directions. */
  function InitialArcs(cw: Crossword): (q: seq<Arc>)
    requires WellFormed(cw)
    ensures forall a, b :: (a, b) in q <==> (a, b) in cw.overlaps
  {
    ArcsFrom(cw, cw.variables)
  }

  /** The arcs `(z, x)` for the slots `z` of `ns` other than `y`. */
  function RequeueFrom(x: Var, y: Var, ns: seq<Var>): (q: seq<Arc>)
    ensures forall a, b :: (a, b) in q <==> a in ns && a != y && b == x
  {
    if ns == [] then []
    else (if ns[0] != y then [(ns[0], x)] else []) + RequeueFrom(x, y, ns[1..])
  }

  /** The arcs queued after `(x, y)` is processed: `(z, x)` for every other neighbour `z` of `x`. */
  function Requeue(cw: Crossword, x: Var, y: Var): (q: seq<Arc>)
    requires WellFormed(cw)
    ensures forall a, b :: (a, b) in q <==> a in Neighbors(cw, x) && a != y && b == x
  {
    NeighborListFaithful(cw, x);
    RequeueFrom(x, y, NeighborList(cw, x))
  }

  /** The loop invariant: every crossing arc is consistent or still waiting in the queue. */
  ghost predicate Pending(cw: Crossword, d: Domains, queue: seq<Arc>) {
    forall x, y | (x, y) in cw.overlaps :: ArcConsistent(cw, d, x, y) || (x, y) in queue
  }

  /** One iteration keeps the invariant. */
  lemma StepKeepsPending(cw: Crossword, d: Domains, queue: seq<Arc>)
    requires WellFormed(cw) && Indexable(cw, d) && Pending(cw, d, queue) && |queue| > 0
    ensures Pending(cw, Revise(cw, d, queue[0].0, queue[0].1).domains,
                    queue[1..] + Requeue(cw, queue[0].0, queue[0].1))
  {
    var (x, y) := queue[0];
    var d' := Revise(cw, d, x, y).domains;
    var q' := queue[1..] + Requeue(cw, x, y);
    forall a, b | (a, b) in cw.overlaps
      ensures ArcConsistent(cw, d', a, b) || (a, b) in q'
    {
      if (a, b) == (x, y) {
      } else if (a, b) in queue {
        var k :| 0 <= k < |queue| && queue[k] == (a, b);
        assert queue[1..][k - 1] == (a, b);
      } else if b != x {
        assert ArcConsistent(cw, d, a, b);
      } else if a == y {
        ReviseKeepsReverseArc(cw, d, x, y);
      } else {
        assert a in Neighbors(cw, x);
        assert (a, x) in Requeue(cw, x, y);
      }
    }
  }

  /** Shrinking and keeping solutions carry over a chain of two steps. */
  lemma ShrinkChain(cw: Crossword, d0: Domains, d1: Domains, d2: Domains)
    requires Shrinks(d0, d1) && Shrinks(d1, d2)
    requires KeepsSolutions(cw, d0, d1) && KeepsSolutions(cw, d1, d2)
    ensures Shrinks(d0, d2) && KeepsSolutions(cw, d0, d2)
  {
  }

  /** Shrinking domains keeps every crossing readable: a shorter word list has no new too-short word. */
  lemma IndexableShrinks(cw: Crossword, d: Domains, d': Domains)
    requires Indexable(cw, d) && Shrinks(d, d')
    ensures Indexable(cw, d')
  {
    forall x, y | (x, y) in cw.overlaps
      ensures ArcReady(cw, d', x, y)
    {
      assert ArcReady(cw, d, x, y);
    }
  }

  /**
   * The worklist loop from domains `d` and queue `queue`, for at most `fuel`
   * iterations. Domains only shrink and no solution is lost; if the loop
   * returns `true` every arc is consistent, and if it returns `false` some
   * domain is empty.
   */
  function Ac3Run(cw: Crossword, d: Domains, queue: seq<Arc>, fuel: nat): (r: Ac3Outcome)
    requires WellFormed(cw) && VarSet(cw) <= d.Keys && Indexable(cw, d)
    requires Pending(cw, d, queue)
    ensures Shrinks(d, r.domains)
    ensures KeepsSolutions(cw, d, r.domains)
    ensures r.Finished? && r.ok ==> AllArcsConsistent(cw, r.domains)
    ensures r.Finished? && !r.ok ==> exists v | v in r.domains :: r.domains[v] == {}
    decreases fuel
  {
    if |queue| == 0 then Finished(true, d)
    else if fuel == 0 then OutOfFuel(d)
    else
      var (x, y) := queue[0];
      var rev := Revise(cw, d, x, y);
      ReviseKeepsSolutions(cw, d, x, y);
      if rev.changed && rev.domains[x] == {} then Finished(false, rev.domains)
      else
        StepKeepsPending(cw, d, queue);
        IndexableShrinks(cw, d, rev.domains);
        var r := Ac3Run(cw, rev.domains, queue[1..] + Requeue(cw, x, y), fuel - 1);
        ShrinkChain(cw, d, rev.domains, r.domains);
        r
  }

  /** `ac3()` with no initial arcs: the loop started on every crossing arc. */
  function Ac3(cw: Crossword, d: Domains, fuel: nat): (r: Ac3Outcome)
    requires WellFormed(cw) && VarSet(cw) <= d.Keys && Indexable(cw, d)
    ensures Shrinks(d, r.domains)
    ensures KeepsSolutions(cw, d, r.domains)
    ensures r.Finished? && r.ok ==> AllArcsConsistent(cw, r.domains)
    ensures r.Finished? && !r.ok ==> exists v | v in r.domains :: r.domains[v] == {}
  {
    Ac3Run(cw, d, InitialArcs(cw), fuel)
  }

  /** Every slot that crosses some slot crosses at least two. */
  ghost predicate NoDeadEnds(cw: Crossword) {
    forall x | x in cw.variables && Neighbors(cw, x) != {} :: |Neighbors(cw, x)| >= 2
  }

  /** A non-empty queue of crossing arcs. */
  ghost predicate CrossingQueue(cw: Crossword, queue: seq<Arc>) {
    queue != [] && forall a, b | (a, b) in queue :: (a, b) in cw.overlaps
  }

  /** On arc-consistent domains, revising a crossing arc removes nothing. */
  lemma ConsistentHeadIsIdle(cw: Crossword, d: Domains, queue: seq<Arc>)
    requires WellFormed(cw) && Indexable(cw, d) && AllArcsConsistent(cw, d)
    requires CrossingQueue(cw, queue)
    ensures Revise(cw, d, queue[0].0, queue[0].1) == Revision(false, d)
  {
    var x := queue[0].0;
    var y := queue[0].1;
    assert (x, y) == queue[0] && (x, y) in queue;
    assert ArcReady(cw, d, x, y) && ArcConsistent(cw, d, x, y);
    ReviseConsistentArcIsIdle(cw, d, x, y);
  }

  /** Without dead ends, a queue of crossing arcs stays one after an iteration. */
  lemma RequeueKeepsCrossingQueue(cw: Crossword, queue: seq<Arc>)
    requires WellFormed(cw) && NoDeadEnds(cw) && CrossingQueue(cw, queue)
    ensures CrossingQueue(cw, queue[1..] + Requeue(cw, queue[0].0, queue[0].1))
  {
    var x := queue[0].0;
    var y := queue[0].1;
    assert (x, y) == queue[0];
    assert (x, y) in queue;
    var q' := queue[1..] + Requeue(cw, x, y);
    forall a, b | (a, b) in q'
      ensures (a, b) in cw.overlaps
    {
      if (a, b) in queue[1..] {
        var k :| 0 <= k < |queue[1..]| && queue[1..][k] == (a, b);
        assert queue[k + 1] == (a, b);
      } else {
        assert a in Neighbors(cw, x) && b == x;
      }
    }
    RequeueNonEmpty(cw, x, y);
  }

  /** Without dead ends, processing a crossing arc always queues another. */
  lemma RequeueNonEmpty(cw: Crossword, x: Var, y: Var)
    requires WellFormed(cw) && NoDeadEnds(cw) && (x, y) in cw.overlaps
    ensures Requeue(cw, x, y) != []
  {
    var ns := Neighbors(cw, x);
    assert x in cw.variables && y in ns;
    var z := AnotherMember(ns, y);
    assert (z, x) in Requeue(cw, x, y);
  }

  /** A set with at least two members has one other than `y`. */
  lemma AnotherMember<T>(s: set<T>, y: T) returns (z: T)
    requires y in s && |s| >= 2
    ensures z in s && z != y
  {
    var rest := s - {y};
    assert |rest| == |s| - 1;
    z :| z in rest;
  }

  /** On arc-consistent domains every queue satisfies the loop invariant. */
  lemma ConsistentIsPending(cw: Crossword, d: Domains, queue: seq<Arc>)
    requires AllArcsConsistent(cw, d)
    ensures Pending(cw, d, queue)
  {
  }

  /** An iteration whose revision changes nothing only moves on to the next queue. */
  lemma IdleStep(cw: Crossword, d: Domains, queue: seq<Arc>, fuel: nat)
    requires WellFormed(cw) && VarSet(cw) <= d.Keys && Indexable(cw, d)
    requires Pending(cw, d, queue) && queue != [] && fuel > 0
    requires Revise(cw, d, queue[0].0, queue[0].1) == Revision(false, d)
    ensures Pending(cw, d, queue[1..] + Requeue(cw, queue[0].0, queue[0].1))
    ensures Ac3Run(cw, d, queue, fuel) == Ac3Run(cw, d, queue[1..] + Requeue(cw, queue[0].0, queue[0].1), fuel - 1)
  {
    StepKeepsPending(cw, d, queue);
  }

  /**
   * Once the domains are arc consistent, on a puzzle without dead ends the
   * queue never drains: each popped arc puts at least one arc back, and no
   * revision empties a domain. Whatever the fuel, the loop is still running.
   */
  lemma {:induction false} NeverDrains(cw: Crossword, d: Domains, queue: seq<Arc>, fuel: nat)
    requires WellFormed(cw) && VarSet(cw) <= d.Keys && Indexable(cw, d)
    requires AllArcsConsistent(cw, d) && NoDeadEnds(cw) && CrossingQueue(cw, queue)
    requires Pending(cw, d, queue)
    ensures Ac3Run(cw, d, queue, fuel) == OutOfFuel(d)
    decreases fuel
  {
    if fuel > 0 {
      var next := DrainStep(cw, d, queue, fuel);
      NeverDrains(cw, d, next, fuel - 1);
    }
  }

  /** One iteration on arc-consistent domains without dead ends: the queue moves on and stays a crossing queue. */
  lemma DrainStep(cw: Crossword, d: Domains, queue: seq<Arc>, fuel: nat) returns (next: seq<Arc>)
    requires WellFormed(cw) && VarSet(cw) <= d.Keys && Indexable(cw, d)
    requires AllArcsConsistent(cw, d) && NoDeadEnds(cw) && CrossingQueue(cw, queue)
    requires Pending(cw, d, queue) && fuel > 0
    ensures CrossingQueue(cw, next) && Pending(cw, d, next)
    ensures Ac3Run(cw, d, queue, fuel) == Ac3Run(cw, d, next, fuel - 1)
  {
    next := queue[1..] + Requeue(cw, queue[0].0, queue[0].1);
    ConsistentHeadIsIdle(cw, d, queue);
    IdleStep(cw, d, queue, fuel);
    RequeueKeepsCrossingQueue(cw, queue);
  }

  /** With arc-consistent domains and no dead ends, `ac3()` never returns on a puzzle that has a crossing. */
  lemma Ac3DivergesWithoutDeadEnds(cw: Crossword, d: Domains, fuel: nat)
    requires WellFormed(cw) && VarSet(cw) <= d.Keys && Indexable(cw, d)
    requires AllArcsConsistent(cw, d) && NoDeadEnds(cw) && |cw.overlaps| > 0
    ensures Ac3(cw, d, fuel) == OutOfFuel(d)
  {
    var k :| k in cw.overlaps;
    assert (k.0, k.1) in InitialArcs(cw);
    ConsistentIsPending(cw, d, InitialArcs(cw));
    NeverDrains(cw, d, InitialArcs(cw), fuel);
  }

  /**
   * On a puzzle without dead ends the loop, whatever the domains, never
   * returns `True`: every pop puts another crossing arc back, so the queue
   * never drains, and the only way out is a revision that empties a domain.
   */
  lemma {:induction false} NeverSucceeds(cw: Crossword, d: Domains, queue: seq<Arc>, fuel: nat)
    requires WellFormed(cw) && VarSet(cw) <= d.Keys && Indexable(cw, d)
    requires NoDeadEnds(cw) && CrossingQueue(cw, queue) && Pending(cw, d, queue)
    ensures !(Ac3Run(cw, d, queue, fuel).Finished? && Ac3Run(cw, d, queue, fuel).ok)
    decreases fuel
  {
    if fuel > 0 {
      var emptied, d', next := StepOn(cw, d, queue, fuel);
      if !emptied {
        NeverSucceeds(cw, d', next, fuel - 1);
      }
    }
  }

  /**
   * One iteration on a puzzle without dead ends: either the revision empties
   * a domain and the loop returns `False`, or the loop goes on from the
   * revised domains and a queue that is again a non-empty crossing queue.
   */
  lemma StepOn(cw: Crossword, d: Domains, queue: seq<Arc>, fuel: nat) returns (emptied: bool, d': Domains, next: seq<Arc>)
    requires WellFormed(cw) && VarSet(cw) <= d.Keys && Indexable(cw, d)
    requires NoDeadEnds(cw) && CrossingQueue(cw, queue) && Pending(cw, d, queue) && fuel > 0
    ensures emptied ==> Ac3Run(cw, d, queue, fuel) == Finished(false, d')
    ensures !emptied ==> VarSet(cw) <= d'.Keys && Indexable(cw, d') && CrossingQueue(cw, next) && Pending(cw, d', next)
    ensures !emptied ==> Ac3Run(cw, d, queue, fuel) == Ac3Run(cw, d', next, fuel - 1)
  {
    var rev := Revise(cw, d, queue[0].0, queue[0].1);
    emptied := rev.changed && rev.domains[queue[0].0] == {};
    d' := rev.domains;
    next := queue[1..] + Requeue(cw, queue[0].0, queue[0].1);
    if !emptied {
      StepKeepsPending(cw, d, queue);
      IndexableShrinks(cw, d, d');
      RequeueKeepsCrossingQueue(cw, queue);
      GoOnStep(cw, d, queue, fuel);
    }
  }

  /** An iteration whose revision leaves the popped slot a word continues from the revised domains and the next queue. */
  lemma GoOnStep(cw: Crossword, d: Domains, queue: seq<Arc>, fuel: nat)
    requires WellFormed(cw) && VarSet(cw) <= d.Keys && Indexable(cw, d)
    requires Pending(cw, d, queue) && queue != [] && fuel > 0
    requires var rev := Revise(cw, d, queue[0].0, queue[0].1); !(rev.changed && rev.domains[queue[0].0] == {})
    ensures var rev := Revise(cw, d, queue[0].0, queue[0].1);
            var next := queue[1..] + Requeue(cw, queue[0].0, queue[0].1);
            && VarSet(cw) <= rev.domains.Keys && Indexable(cw, rev.domains) && Pending(cw, rev.domains, next)
            && Ac3Run(cw, d, queue, fuel) == Ac3Run(cw, rev.domains, next, fuel - 1)
  {
    StepKeepsPending(cw, d, queue);
    IndexableShrinks(cw, d, Revise(cw, d, queue[0].0, queue[0].1).domains);
  }

  /**
   * `ac3()` on a puzzle that has crossings but no dead ends returns `False`
   * or never returns: it cannot report the domains arc consistent.
   */
  lemma Ac3NeverSucceeds(cw: Crossword, d: Domains, fuel: nat)
    requires WellFormed(cw) && VarSet(cw) <= d.Keys && Indexable(cw, d)
    requires NoDeadEnds(cw) && |cw.overlaps| > 0
    ensures !(Ac3(cw, d, fuel).Finished? && Ac3(cw, d, fuel).ok)
  {
    var k :| k in cw.overlaps;
    assert (k.0, k.1) in InitialArcs(cw);
    NeverSucceeds(cw, d, InitialArcs(cw), fuel);
  }

  /**
   * `ac3()` returns `True` with an empty domain: a slot that crosses nothing
   * is never revised, so node consistency can empty its domain unnoticed.
   */
  lemma EmptyDomainPassesAc3(fuel: nat)
    ensures var v := Var(0, 0, Across, 4);
            var cw := Crossword(1, 4, [v], {"AB"}, map[], map[v := []]);
            var d := EnforceNodeConsistency(cw, InitialDomains(cw));
            && WellFormed(cw) && VarSet(cw) <= d.Keys && Indexable(cw, d)
            && d[v] == {} && Ac3(cw, d, fuel) == Finished(true, d)
  {
    var v := Var(0, 0, Across, 4);
    var cw := Crossword(1, 4, [v], {"AB"}, map[], map[v := []]);
    assert WellFormed(cw);
    assert NeighborList(cw, v) == [] && [v][1..] == [];
    assert InitialArcs(cw) == ArcsTo(cw, v, []) + ArcsFrom(cw, []) == [];
  }
}

=== FILE: assignments.dfy ===
/**
 * Assignments of words to slots and the consistency test the search uses.
 */
module Assignments {
  import opened Wrappers
  import opened Crosswords

  /** A partial assignment: slot to chosen word. */
  type Assignment = map<Var, string>

  /** Every assigned word is exactly as long as its slot. */
  predicate LengthsFit(a: Assignment) {
    forall v | v in a :: |a[v]| == v.length
  }

  /** `w` read at index `i` and `u` read at index `j` give the same letter. */
  predicate Agree(w: string, u: string, i: nat, j: nat) {
    i < |w| && j < |u| && w[i] == u[j]
  }

  /** The assigned words of the crossing slots `x` and `y` share the letter at the crossing. */
  predicate Agrees(cw: Crossword, a: Assignment, x: Var, y: Var)
    requires x in a && y in a && (x, y) in cw.overlaps
  {
    var (i, j) := cw.overlaps[(x, y)];
    Agree(a[x], a[y], i, j)
  }

  /**
   * The words fit in the puzzle without conflicting characters: lengths
   * match and every pair of assigned crossing slots agrees on the shared
   * letter. Whether two slots carry the same word is not part of it.
   */
  predicate IsConsistent(cw: Crossword, a: Assignment) {
    && LengthsFit(a)
    && forall x, y | x in a && y in a && (x, y) in cw.overlaps :: Agrees(cw, a, x, y)
  }

  /** `c` keeps every entry of `a`. */
  predicate Extends(c: Assignment, a: Assignment) {
    forall v | v in a :: v in c && c[v] == a[v]
  }

  /** A full solution of the puzzle: every slot assigned, consistently. */
  predicate IsSolution(cw: Crossword, c: Assignment) {
    c.Keys == VarSet(cw) && IsConsistent(cw, c)
  }

  /**
   * The consistency test as the solver runs it: first every word's length
   * against its slot, then, for every assigned slot and every neighbour of it
   * that is also assigned, the letters at the crossing. (`consistent` also tests
   * each word for membership in a set that is never filled; that test can
   * never fail and is not repeated here.)
   */
  method Consistent(cw: Crossword, a: Assignment) returns (r: bool)
    requires WellFormed(cw)
    ensures r <==> IsConsistent(cw, a)
  {
    var pending := a.Keys;
    while pending != {}
      invariant pending <= a.Keys
      invariant forall v | v in a && v !in pending :: |a[v]| == v.length
      decreases pending
    {
      var v :| v in pending;
      if |a[v]| != v.length {
        return false;
      }
      pending := pending - {v};
    }
    var outer := a.Keys;
    while outer != {}
      invariant outer <= a.Keys
      invariant forall x, y | x in a && x !in outer && y in a && (x, y) in cw.overlaps :: Agrees(cw, a, x, y)
      decreases outer
    {
      var x :| x in outer;
      var nbrs := Neighbors(cw, x);
      while nbrs != {}
        invariant nbrs <= Neighbors(cw, x)
        invariant forall y | y in Neighbors(cw, x) && y !in nbrs && y in a :: Agrees(cw, a, x, y)
        decreases nbrs
      {
        var y :| y in nbrs;
        if y in a {
          var (i, j) := cw.overlaps[(x, y)];
          if a[x][i] != a[y][j] {
            return false;
          }
        }
        nbrs := nbrs - {y};
      }
      outer := outer - {x};
    }
    return true;
  }

  /** Consistency is inherited by every sub-assignment. */
  lemma ConsistentPrefix(cw: Crossword, c: Assignment, a: Assignment)
    requires IsConsistent(cw, c) && Extends(c, a)
    ensures IsConsistent(cw, a)
  {
    forall x, y | x in a && y in a && (x, y) in cw.overlaps
      ensures Agrees(cw, a, x, y)
    {
      assert Agrees(cw, c, x, y);
    }
  }

  /**
   * Two slots that do not cross may hold the same word: the consistency test
   * accepts it. `consistent` collects the assigned words in one set but
   * tests each word against another set that stays empty, so its
   * repeated-word test never rejects.
   */
  lemma RepeatedWordIsConsistent()
    ensures var x := Var(0, 0, Across, 3);
            var y := Var(2, 0, Across, 3);
            var cw := Crossword(3, 3, [x, y], {"CAT"}, map[], map[x := [], y := []]);
            IsSolution(cw, map[x := "CAT", y := "CAT"])
  {
  }

  /**
   * `assignment_complete`, which the program defines and never calls: an
   * assignment counts as complete when none of its entries is `None`.
   */
  function AssignmentComplete(a: map<Var, Option<string>>): (r: bool)
    ensures r <==> None !in a.Values
  {
    forall v | v in a :: a[v].Some?
  }

  /**
   * That test looks at the entries present only: the empty assignment passes
   * it although it assigns no slot at all.
   */
  lemma AssignmentCompleteIgnoresMissingSlots(cw: Crossword)
    requires |cw.variables| > 0
    ensures var empty: map<Var, Option<string>> := map[];
            AssignmentComplete(empty) && empty.Keys != VarSet(cw)
  {
    assert cw.variables[0] in VarSet(cw);
  }

  /**
   * The completeness test the search uses instead compares sizes; on an
   * assignment of the puzzle's own slots that is the same as covering them all.
   */
  lemma {:induction false} FullBySize(cw: Crossword, a: Assignment)
    requires a.Keys <= VarSet(cw)
    ensures |a| <= |VarSet(cw)|
    ensures |a| == |VarSet(cw)| <==> a.Keys == VarSet(cw)
  {
    var rest := VarSet(cw) - a.Keys;
    assert VarSet(cw) == a.Keys + rest;
    assert |VarSet(cw)| == |a.Keys| + |rest|;
  }
}

=== FILE: crossword.dfy ===
/**
 * The puzzle structure the solver works on: the slots ("variables"), the
 * vocabulary and the crossing relation between slots. The structure is
 * produced by a parser that is not part of this model; it is taken here as
 * a given value, together with the invariants that parser establishes
 * (`WellFormed`).
 */
module Crosswords {

  /** Direction in which a slot is read. */
  datatype Direction = Across | Down

  /** A slot: start cell (row `i`, column `j`), direction and length. Equality is structural. */
  datatype Var = Var(i: nat, j: nat, direction: Direction, length: nat)

  /** Index into the first slot's word and index into the second slot's word that must hold the same letter. */
  type Overlap = (nat, nat)

  /**
   * `variables` lists the slots in the order the solver iterates them (the
   * structure keeps them in a set; the sequence fixes one iteration order);
   * `overlaps` has a key for exactly the ordered pairs of slots that cross, a
   * missing key standing for the structure's `None`; `neighborOrder` gives,
   * for every slot, the order in which iterating the structure's set of its
   * neighbours visits them.
   */
  datatype Crossword = Crossword(
    height: nat,
    width: nat,
    variables: seq<Var>,
    words: set<string>,
    overlaps: map<(Var, Var), Overlap>,
    neighborOrder: map<Var, seq<Var>>)

  /** The slots as a set. */
  function VarSet(cw: Crossword): set<Var> {
    set v | v in cw.variables
  }

  predicate NoDuplicates<T(==)>(s: seq<T>) {
    forall p, q | 0 <= p < q < |s| :: s[p] != s[q]
  }

  /** The slots crossing `x`. */
  function Neighbors(cw: Crossword, x: Var): set<Var> {
    set y | y in cw.variables && (x, y) in cw.overlaps
  }

  /** The recorded neighbour order of `x` lists every slot crossing `x` exactly once, and nothing else. */
  predicate ListsNeighbors(cw: Crossword, x: Var) {
    && x in cw.neighborOrder
    && NoDuplicates(cw.neighborOrder[x])
    && (forall y | y in cw.neighborOrder[x] :: y in Neighbors(cw, x))
    && (forall y | y in Neighbors(cw, x) :: y in cw.neighborOrder[x])
  }

  /** Every cell of slot `v` lies inside the grid. */
  predicate InsideGrid(cw: Crossword, v: Var) {
    match v.direction
    case Across => v.i < cw.height && v.j + v.length <= cw.width
    case Down => v.j < cw.width && v.i + v.length <= cw.height
  }

  /**
   * The invariants of the structure: slots are listed once and lie inside
   * the grid; crossings join two distinct slots, their indices are inside
   * both slots, and the relation is symmetric with the index pair swapped;
   * every slot, and nothing else, has a neighbour order listing its
   * neighbours.
   */
  ghost predicate WellFormed(cw: Crossword) {
    && NoDuplicates(cw.variables)
    && (forall x, y | (x, y) in cw.overlaps ::
         && x in cw.variables && y in cw.variables && x != y
         && cw.overlaps[(x, y)].0 < x.length
         && cw.overlaps[(x, y)].1 < y.length
         && (y, x) in cw.overlaps
         && cw.overlaps[(y, x)] == (cw.overlaps[(x, y)].1, cw.overlaps[(x, y)].0))
    && cw.neighborOrder.Keys == VarSet(cw)
    && (forall x | x in cw.variables :: ListsNeighbors(cw, x) && InsideGrid(cw, x))
  }

  /** The neighbours of `x` in the order the solver visits them; a slot not in the puzzle has none. */
  function NeighborList(cw: Crossword, x: Var): (ns: seq<Var>)
    ensures x !in cw.neighborOrder ==> ns == []
    ensures ListsNeighbors(cw, x) ==> NoDuplicates(ns) && forall y :: y in ns <==> y in Neighbors(cw, x)
  {
    if x in cw.neighborOrder then cw.neighborOrder[x] else []
  }

  /** In a well-formed structure the neighbour list of any slot lists its neighbours exactly once. */
  lemma NeighborListFaithful(cw: Crossword, x: Var)
    requires WellFormed(cw)
    ensures NoDuplicates(NeighborList(cw, x))
    ensures forall y :: y in NeighborList(cw, x) <==> y in Neighbors(cw, x)
  {
    if x !in cw.variables {
      assert x !in VarSet(cw);
      forall y | y in Neighbors(cw, x)
        ensures false
      {
      }
    }
  }
}

=== FILE: domains.dfy ===
/**
 * The domain store (slot to still-possible words), the node-consistency
 * filter and the arc revision step of AC-3.
 */
module Domains {
  import opened Crosswords
  import opened Assignments

  type Domains = map<Var, set<string>>

  /** Every slot starts with the whole vocabulary. */
  function InitialDomains(cw: Crossword): (d: Domains)
    ensures d.Keys == VarSet(cw)
    ensures forall v | v in d :: d[v] == cw.words
  {
    map v | v in VarSet(cw) :: cw.words
  }

  /** Every word left for a slot has the slot's length. */
  predicate NodeConsistent(cw: Crossword, d: Domains) {
    forall v | v in cw.variables :: v in d && forall w | w in d[v] :: |w| == v.length
  }

  /**
   * Both slots of the crossing arc `(x, y)` have a domain, and every word in
   * them is long enough to be read at the crossing.
   */
  predicate ArcReady(cw: Crossword, d: Domains, x: Var, y: Var) {
    (x, y) in cw.overlaps ==>
      && x in d && y in d
      && (forall w | w in d[x] :: cw.overlaps[(x, y)].0 < |w|)
      && (forall u | u in d[y] :: cw.overlaps[(x, y)].1 < |u|)
  }

  /** Every crossing arc can be revised without reading past the end of a word. */
  ghost predicate Indexable(cw: Crossword, d: Domains) {
    forall x, y | (x, y) in cw.overlaps :: ArcReady(cw, d, x, y)
  }

  /** Some candidate agrees with `w` at the crossing `(i, j)`. */
  predicate Supported(w: string, candidates: set<string>, i: nat, j: nat) {
    exists u | u in candidates :: Agree(w, u, i, j)
  }

  /** Every word left for `x` has a partner in `y`'s domain at their crossing. */
  predicate ArcConsistent(cw: Crossword, d: Domains, x: Var, y: Var) {
    (x, y) in cw.overlaps ==>
      && x in d && y in d
      && forall w | w in d[x] :: Supported(w, d[y], cw.overlaps[(x, y)].0, cw.overlaps[(x, y)].1)
  }

  /** Every crossing arc is consistent. */
  ghost predicate AllArcsConsistent(cw: Crossword, d: Domains) {
    forall x, y | (x, y) in cw.overlaps :: ArcConsistent(cw, d, x, y)
  }

  /** `d'` has the same slots as `d` and each of its domains is a subset of the old one. */
  predicate Shrinks(d: Domains, d': Domains) {
    d'.Keys == d.Keys && forall v | v in d :: d'[v] <= d[v]
  }

  /** Every word of `c` is still in the domain of its slot. */
  predicate Within(c: Assignment, d: Domains) {
    forall v | v in c :: v in d && c[v] in d[v]
  }

  /** No solution that `d` allows is lost in `d'`. */
  ghost predicate KeepsSolutions(cw: Crossword, d: Domains, d': Domains) {
    forall c | IsSolution(cw, c) && Within(c, d) :: Within(c, d')
  }

  /**
   * Node consistency: every slot's domain loses exactly its words of the
   * wrong length; domains of keys that are not slots are left alone.
   */
  function EnforceNodeConsistency(cw: Crossword, d: Domains): (d': Domains)
    requires VarSet(cw) <= d.Keys
    ensures NodeConsistent(cw, d')
    ensures Shrinks(d, d')
    ensures forall v, w | v in cw.variables && w in d[v] && |w| == v.length :: w in d'[v]
    ensures forall v | v in d && v !in cw.variables :: d'[v] == d[v]
  {
    map v | v in d :: if v in VarSet(cw) then (set w | w in d[v] && |w| == v.length) else d[v]
  }

  /** Filtering twice removes nothing more. */
  lemma NodeConsistencyIdempotent(cw: Crossword, d: Domains)
    requires VarSet(cw) <= d.Keys
    ensures EnforceNodeConsistency(cw, EnforceNodeConsistency(cw, d)) == EnforceNodeConsistency(cw, d)
  {
    var once := EnforceNodeConsistency(cw, d);
    var twice := EnforceNodeConsistency(cw, once);
    forall v | v in once
      ensures twice[v] == once[v]
    {
      if v in cw.variables {
        assert forall w | w in once[v] :: w in twice[v];
      }
    }
  }

  /** Node consistency never removes a word some solution uses. */
  lemma NodeConsistencyKeepsSolutions(cw: Crossword, d: Domains)
    requires VarSet(cw) <= d.Keys
    ensures KeepsSolutions(cw, d, EnforceNodeConsistency(cw, d))
  {
  }

  /** On a well-formed puzzle, node-consistent domains can be read at every crossing. */
  lemma NodeConsistentIsIndexable(cw: Crossword, d: Domains)
    requires WellFormed(cw) && NodeConsistent(cw, d)
    ensures Indexable(cw, d)
  {
  }

  /** Outcome of revising one arc: whether a word was removed, and the new domains. */
  datatype Revision = Revision(changed: bool, domains: Domains)

  /**
   * Make `x` arc consistent with `y`: drop from `x`'s domain every word that
   * no word of `y`'s domain agrees with at the crossing. A pair that does not
   * cross is left untouched.
   */
  function Revise(cw: Crossword, d: Domains, x: Var, y: Var): (r: Revision)
    requires WellFormed(cw)
    requires ArcReady(cw, d, x, y)
    ensures (x, y) !in cw.overlaps ==> !r.changed && r.domains == d
    ensures Shrinks(d, r.domains)
    ensures forall v | v in d && v != x :: r.domains[v] == d[v]
    ensures (x, y) in cw.overlaps ==>
      && ArcConsistent(cw, r.domains, x, y)
      && (forall w | w in d[x] && Supported(w, d[y], cw.overlaps[(x, y)].0, cw.overlaps[(x, y)].1) :: w in r.domains[x])
      && (r.changed <==> exists w :: w in d[x] && w !in r.domains[x])
  {
    if (x, y) !in cw.overlaps then Revision(false, d)
    else
      var (i, j) := cw.overlaps[(x, y)];
      var kept := set w | w in d[x] && Supported(w, d[y], i, j);
      Revision(kept != d[x], d[x := kept])
  }

  /** Revising an arc that is already consistent changes nothing and reports no change. */
  lemma ReviseConsistentArcIsIdle(cw: Crossword, d: Domains, x: Var, y: Var)
    requires WellFormed(cw) && ArcReady(cw, d, x, y) && ArcConsistent(cw, d, x, y)
    ensures Revise(cw, d, x, y) == Revision(false, d)
  {
    var r := Revise(cw, d, x, y);
    if (x, y) in cw.overlaps {
      assert r.domains[x] == d[x];
      assert r.domains == d;
    }
  }

  /** A second revision of the same arc removes nothing. */
  lemma ReviseIdempotent(cw: Crossword, d: Domains, x: Var, y: Var)
    requires WellFormed(cw) && ArcReady(cw, d, x, y)
    ensures var d' := Revise(cw, d, x, y).domains;
            ArcReady(cw, d', x, y) && Revise(cw, d', x, y) == Revision(false, d')
  {
    var d' := Revise(cw, d, x, y).domains;
    ReviseConsistentArcIsIdle(cw, d', x, y);
  }

  /** Revising an arc never removes a word some solution uses. */
  lemma ReviseKeepsSolutions(cw: Crossword, d: Domains, x: Var, y: Var)
    requires WellFormed(cw) && ArcReady(cw, d, x, y)
    ensures KeepsSolutions(cw, d, Revise(cw, d, x, y).domains)
  {
    var d' := Revise(cw, d, x, y).domains;
    forall c | IsSolution(cw, c) && Within(c, d)
      ensures Within(c, d')
    {
      if (x, y) in cw.overlaps {
        assert x in c && y in c;
        assert Agrees(cw, c, x, y);
        var (i, j) := cw.overlaps[(x, y)];
        assert Agree(c[x], c[y], i, j);
      }
    }
  }

  /**
   * Revising `(x, y)` keeps the reverse arc `(y, x)` consistent: a word of
   * `x` that supports a word of `y` is itself supported by it, so it stays.
   */
  lemma ReviseKeepsReverseArc(cw: Crossword, d: Domains, x: Var, y: Var)
    requires WellFormed(cw) && ArcReady(cw, d, x, y)
    requires ArcConsistent(cw, d, y, x)
    ensures ArcConsistent(cw, Revise(cw, d, x, y).domains, y, x)
  {
    var d' := Revise(cw, d, x, y).domains;
    if (y, x) in cw.overlaps {
      var (j, i) := cw.overlaps[(y, x)];
      forall u | u in d'[y]
        ensures Supported(u, d'[x], j, i)
      {
        assert Supported(u, d[x], j, i);
        var w :| w in d[x] && Agree(u, w, j, i);
        assert Agree(w, u, i, j);
        assert w in d'[x];
      }
    }
  }
}

=== FILE: grid.dfy ===
/**
 * The letter grid of an assignment: the height x width table in which every
 * assigned word is written into the cells of its slot.
 */
module Grid {
  import opened Wrappers
  import opened Crosswords
  import opened Assignments

  /** Rows of cells; `None` is a cell no assigned word reaches. */
  type Letters = seq<seq<Option<char>>>

  /** `g` has `height` rows of `width` cells each. */
  predicate Shaped(g: Letters, height: nat, width: nat) {
    |g| == height && forall r | 0 <= r < |g| :: |g[r]| == width
  }

  /** The cell (row, column) holding letter `k` of slot `v`. */
  function Cell(v: Var, k: nat): (nat, nat) {
    (v.i + (if v.direction == Down then k else 0), v.j + (if v.direction == Across then k else 0))
  }

  /** Which letter of slot `v` lands in cell (`r`, `c`), if any does. */
  function Offset(v: Var, r: nat, c: nat): Option<nat> {
    match v.direction
    case Across => if r == v.i && v.j <= c then Some(c - v.j) else None
    case Down => if c == v.j && v.i <= r then Some(r - v.i) else None
  }

  /** `Offset` inverts `Cell`: letter `k` of a slot lands in a cell exactly when the cell's offset in the slot is `k`. */
  lemma OffsetInverts(v: Var, k: nat, r: nat, c: nat)
    ensures Offset(v, r, c) == Some(k) <==> Cell(v, k) == (r, c)
  {
  }

  /** Letter `k` of slot `v`, for some `k < n`, lands in cell (`r`, `c`). */
  predicate Reaches(v: Var, n: nat, r: nat, c: nat) {
    Offset(v, r, c).Some? && Offset(v, r, c).value < n
  }

  /** Word `w` in slot `v` writes a letter into cell (`r`, `c`). */
  predicate Covers(v: Var, w: string, r: nat, c: nat) {
    Reaches(v, |w|, r, c)
  }

  /** The letter word `w` in slot `v` writes into a cell it covers. */
  function LetterAt(v: Var, w: string, r: nat, c: nat): char
    requires Covers(v, w, r, c)
  {
    w[Offset(v, r, c).value]
  }

  /** Every letter of `w`, written from the start of slot `v`, lands inside the grid. */
  predicate InGrid(cw: Crossword, v: Var, w: string) {
    forall k: nat | k < |w| :: Cell(v, k).0 < cw.height && Cell(v, k).1 < cw.width
  }

  /** The empty grid: every cell `None`. */
  function Blank(height: nat, width: nat): (g: Letters)
    ensures Shaped(g, height, width)
    ensures forall r, c | 0 <= r < height && 0 <= c < width :: g[r][c].None?
  {
    seq(height, _ => seq(width, _ => None))
  }

  /**
   * The inner loop of `letter_grid`: letters `0 .. n-1` of `w` written, in
   * order, into the cells of slot `v`. Exactly the cells those letters reach
   * change, and each receives its letter.
   */
  function Write(cw: Crossword, g: Letters, v: Var, w: string, n: nat): (g': Letters)
    requires Shaped(g, cw.height, cw.width) && InGrid(cw, v, w) && n <= |w|
    ensures Shaped(g', cw.height, cw.width)
    ensures forall r, c | 0 <= r < cw.height && 0 <= c < cw.width ::
              g'[r][c] == (if Reaches(v, n, r, c) then Some(w[Offset(v, r, c).value]) else g[r][c])
    decreases n
  {
    if n == 0 then g
    else
      var before := Write(cw, g, v, w, n - 1);
      var (i, j) := Cell(v, n - 1);
      var after := before[i := before[i][j := Some(w[n - 1])]];
      WriteStep(cw, g, before, after, v, w, n);
      after
  }

  /** Writing letter `n-1` extends the cells written by the first `n-1` letters by exactly its own cell. */
  lemma WriteStep(cw: Crossword, g: Letters, before: Letters, after: Letters, v: Var, w: string, n: nat)
    requires Shaped(g, cw.height, cw.width) && Shaped(before, cw.height, cw.width) && InGrid(cw, v, w)
    requires 0 < n <= |w|
    requires forall r, c | 0 <= r < cw.height && 0 <= c < cw.width ::
               before[r][c] == (if Reaches(v, n - 1, r, c) then Some(w[Offset(v, r, c).value]) else g[r][c])
    requires after == before[Cell(v, n - 1).0 := before[Cell(v, n - 1).0][Cell(v, n - 1).1 := Some(w[n - 1])]]
    ensures Shaped(after, cw.height, cw.width)
    ensures forall r, c | 0 <= r < cw.height && 0 <= c < cw.width ::
              after[r][c] == (if Reaches(v, n, r, c) then Some(w[Offset(v, r, c).value]) else g[r][c])
  {
    var (i, j) := Cell(v, n - 1);
    assert i < cw.height && j < cw.width;
    forall r, c | 0 <= r < cw.height && 0 <= c < cw.width
      ensures after[r][c] == (if Reaches(v, n, r, c) then Some(w[Offset(v, r, c).value]) else g[r][c])
    {
      OffsetInverts(v, n - 1, r, c);
      if (r, c) != (i, j) {
        assert after[r][c] == before[r][c];
      }
    }
  }

  /** Every assigned word fits inside the grid. */
  predicate Fits(cw: Crossword, a: Assignment) {
    forall v | v in a :: InGrid(cw, v, a[v])
  }

  /**
   * A consistent assignment of the puzzle's own slots fits the grid: each
   * word is as long as its slot and every slot lies inside the grid, so
   * `letter_grid` never indexes outside its table.
   */
  lemma ConsistentFits(cw: Crossword, a: Assignment)
    requires WellFormed(cw) && a.Keys <= VarSet(cw) && IsConsistent(cw, a)
    ensures Fits(cw, a)
  {
    forall v | v in a
      ensures InGrid(cw, v, a[v])
    {
      assert v in VarSet(cw);
      assert InsideGrid(cw, v) && |a[v]| == v.length;
    }
  }

  /** Wherever two assigned words reach the same cell, they write the same letter there. */
  ghost predicate Coherent(a: Assignment) {
    forall x, y, r: nat, c: nat | x in a && y in a && Covers(x, a[x], r, c) && Covers(y, a[y], r, c) ::
      LetterAt(x, a[x], r, c) == LetterAt(y, a[y], r, c)
  }

  /**
   * `letter_grid`: a height x width grid in which every assigned word is
   * written into its slot, the words taken in any order. A cell is `None`
   * exactly when no assigned word reaches it, and otherwise holds the letter
   * some word reaching it writes there (the last one written). When the
   * assigned words agree on every shared cell, every letter of every word
   * can be read back from the grid.
   */
  method LetterGrid(cw: Crossword, a: Assignment) returns (letters: Letters)
    requires Fits(cw, a)
    ensures Shaped(letters, cw.height, cw.width)
    ensures forall r, c | 0 <= r < cw.height && 0 <= c < cw.width ::
              letters[r][c].None? <==> forall v | v in a :: !Covers(v, a[v], r, c)
    ensures forall r, c | 0 <= r < cw.height && 0 <= c < cw.width && letters[r][c].Some? ::
              exists v | v in a && Covers(v, a[v], r, c) :: letters[r][c].value == LetterAt(v, a[v], r, c)
    ensures Coherent(a) ==>
              forall v, k: nat | v in a && k < |a[v]| :: letters[Cell(v, k).0][Cell(v, k).1] == Some(a[v][k])
  {
    letters := Blank(cw.height, cw.width);
    var pending := a.Keys;
    ghost var done: set<Var> := {};
    while pending != {}
      invariant pending + done == a.Keys && pending !! done
      invariant Shaped(letters, cw.height, cw.width)
      invariant forall r, c | 0 <= r < cw.height && 0 <= c < cw.width ::
                  letters[r][c].None? <==> forall v | v in done :: !Covers(v, a[v], r, c)
      invariant forall r, c | 0 <= r < cw.height && 0 <= c < cw.width && letters[r][c].Some? ::
                  exists v | v in done && Covers(v, a[v], r, c) :: letters[r][c].value == LetterAt(v, a[v], r, c)
      decreases pending
    {
      var v :| v in pending;
      letters := Write(cw, letters, v, a[v], |a[v]|);
      pending := pending - {v};
      done := done + {v};
    }
    forall v, k: nat | Coherent(a) && v in a && k < |a[v]|
      ensures letters[Cell(v, k).0][Cell(v, k).1] == Some(a[v][k])
    {
      var (r, c) := Cell(v, k);
      OffsetInverts(v, k, r, c);
      assert Covers(v, a[v], r, c);
      var u :| u in a && Covers(u, a[u], r, c) && letters[r][c].value == LetterAt(u, a[u], r, c);
      assert LetterAt(v, a[v], r, c) == a[v][k];
    }
  }

  /**
   * The crossing relation is the one the grid geometry gives: whenever two
   * different slots reach the same cell, they are recorded as crossing there.
   * The structure's parser computes the overlaps this way.
   */
  ghost predicate GeometryMatches(cw: Crossword) {
    forall x, y, k1: nat, k2: nat |
      x in cw.variables && y in cw.variables && x != y && k1 < x.length && k2 < y.length && Cell(x, k1) == Cell(y, k2) ::
      (x, y) in cw.overlaps && cw.overlaps[(x, y)] == (k1, k2)
  }

  /** A consistent assignment of a puzzle whose crossings follow its geometry agrees on every shared cell. */
  lemma ConsistentIsCoherent(cw: Crossword, a: Assignment)
    requires GeometryMatches(cw) && a.Keys <= VarSet(cw) && IsConsistent(cw, a)
    ensures Coherent(a)
  {
    forall x, y, r: nat, c: nat | x in a && y in a && Covers(x, a[x], r, c) && Covers(y, a[y], r, c)
      ensures LetterAt(x, a[x], r, c) == LetterAt(y, a[y], r, c)
    {
      SharedCellAgrees(cw, a, x, y, r, c);
    }
  }

  /** Two assigned slots reaching the same cell cross there, so a consistent assignment gives them one letter. */
  lemma SharedCellAgrees(cw: Crossword, a: Assignment, x: Var, y: Var, r: nat, c: nat)
    requires GeometryMatches(cw) && a.Keys <= VarSet(cw) && IsConsistent(cw, a)
    requires x in a && y in a && Covers(x, a[x], r, c) && Covers(y, a[y], r, c)
    ensures LetterAt(x, a[x], r, c) == LetterAt(y, a[y], r, c)
  {
    var k1 := Offset(x, r, c).value;
    var k2 := Offset(y, r, c).value;
    OffsetInverts(x, k1, r, c);
    OffsetInverts(y, k2, r, c);
    if x != y {
      assert x in VarSet(cw) && y in VarSet(cw);
      assert |a[x]| == x.length && |a[y]| == y.length;
      assert (x, y) in cw.overlaps && cw.overlaps[(x, y)] == (k1, k2);
      assert Agrees(cw, a, x, y);
    }
  }
}

=== FILE: heuristics.dfy ===
/**
 * The search heuristics: which slot to fill next (fewest remaining values,
 * then most neighbours) and in which order to try a slot's words (fewest
 * eliminated neighbour values first).
 */
module Heuristics {
  import opened Wrappers
  import opened Crosswords
  import opened Assignments
  import opened Domains

  /** `u` comes before `v`: fewer remaining values, or as many and more neighbours. */
  predicate Preferred(cw: Crossword, d: Domains, u: Var, v: Var) {
    && u in d && v in d
    && (|| |d[u]| < |d[v]|
        || (|d[u]| == |d[v]| && |Neighbors(cw, u)| > |Neighbors(cw, v)|))
  }

  /** Every slot before position `k` of `vs` is assigned or strictly worse than `vs[k]`. */
  predicate FirstAmongTies(cw: Crossword, d: Domains, a: Assignment, vs: seq<Var>, k: int) {
    0 <= k < |vs| && forall p | 0 <= p < k :: vs[p] in a || Preferred(cw, d, vs[k], vs[p])
  }

  /**
   * The first unassigned slot of `vs` that no unassigned slot of `vs` is
   * preferred to; `None` when every slot of `vs` is assigned. This is the head
   * of the unassigned slots after a stable sort on (remaining values,
   * minus the number of neighbours).
   */
  function SelectFrom(cw: Crossword, d: Domains, a: Assignment, vs: seq<Var>): (r: Option<Var>)
    requires forall v | v in vs :: v in d
    ensures r.None? <==> forall v | v in vs :: v in a
    ensures r.Some? ==> r.value in vs && r.value !in a
    ensures r.Some? ==> forall u | u in vs && u !in a :: !Preferred(cw, d, u, r.value)
    ensures r.Some? ==> exists k :: FirstAmongTies(cw, d, a, vs, k) && vs[k] == r.value
  {
    if vs == [] then None
    else
      var rest := SelectFrom(cw, d, a, vs[1..]);
      if vs[0] in a then
        ShiftFirst(cw, d, a, vs, rest);
        rest
      else if rest.Some? && Preferred(cw, d, rest.value, vs[0]) then
        ShiftFirst(cw, d, a, vs, rest);
        rest
      else
        Some(vs[0])
  }

  /** The "first among equals" index of a choice from `vs[1..]` moves up by one in `vs`. */
  lemma ShiftFirst(cw: Crossword, d: Domains, a: Assignment, vs: seq<Var>, rest: Option<Var>)
    requires vs != [] && forall v | v in vs :: v in d
    requires rest.Some? ==> exists k :: FirstAmongTies(cw, d, a, vs[1..], k) && vs[1..][k] == rest.value
    requires rest.Some? ==> vs[0] in a || Preferred(cw, d, rest.value, vs[0])
    ensures rest.Some? ==> exists k :: FirstAmongTies(cw, d, a, vs, k) && vs[k] == rest.value
  {
    if rest.Some? {
      var k :| FirstAmongTies(cw, d, a, vs[1..], k) && vs[1..][k] == rest.value;
      assert vs[k + 1] == rest.value;
      forall p | 0 <= p < k + 1
        ensures vs[p] in a || Preferred(cw, d, vs[k + 1], vs[p])
      {
        if p > 0 {
          assert vs[p] == vs[1..][p - 1];
        }
      }
      assert FirstAmongTies(cw, d, a, vs, k + 1);
    }
  }

  /**
   * `select_unassigned_variable`: `None` exactly when every slot is assigned;
   * otherwise an unassigned slot with the fewest remaining values, and among
   * those the most neighbours; among full ties, the first in slot order.
   */
  function SelectUnassignedVariable(cw: Crossword, d: Domains, a: Assignment): (r: Option<Var>)
    requires VarSet(cw) <= d.Keys
    ensures r.None? <==> VarSet(cw) <= a.Keys
    ensures r.Some? ==> r.value in VarSet(cw) && r.value !in a
    ensures r.Some? ==> forall u | u in VarSet(cw) && u !in a ::
              |d[r.value]| <= |d[u]| &&
              (|d[r.value]| == |d[u]| ==> |Neighbors(cw, r.value)| >= |Neighbors(cw, u)|)
  {
    var r := SelectFrom(cw, d, a, cw.variables);
    assert r.Some? ==> forall u | u in VarSet(cw) && u !in a :: !Preferred(cw, d, u, r.value);
    r
  }

  /** Some neighbour of `v` is not assigned yet. */
  predicate HasUnassignedNeighbor(cw: Crossword, v: Var, a: Assignment) {
    exists n | n in Neighbors(cw, v) :: n !in a
  }

  /** How many of `candidates` disagree with `word` at the crossing `(i, j)`. */
  function ConflictCount(word: string, candidates: set<string>, i: nat, j: nat): nat {
    |set u | u in candidates && !Agree(word, u, i, j)|
  }

  /**
   * Values that `word` for `v` would rule out in the slots of `ns` (crossing
   * `v`) that are still unassigned.
   */
  function EliminatedIn(cw: Crossword, d: Domains, v: Var, a: Assignment, word: string, ns: seq<Var>): nat
    requires forall n | n in ns :: (v, n) in cw.overlaps && n in d
  {
    if ns == [] then 0
    else
      var n := ns[|ns| - 1];
      var (i, j) := cw.overlaps[(v, n)];
      EliminatedIn(cw, d, v, a, word, ns[..|ns| - 1]) + (if n in a then 0 else ConflictCount(word, d[n], i, j))
  }

  /**
   * The least-constraining-value measure of `word` for `v`: over the
   * unassigned neighbours of `v`, the number of their values that disagree
   * with `word` at the crossing.
   */
  function EliminationCount(cw: Crossword, d: Domains, v: Var, a: Assignment, word: string): nat
    requires ReadyAt(cw, d, v)
  {
    EliminatedIn(cw, d, v, a, word, NeighborList(cw, v))
  }

  /**
   * `v` has its neighbour order, and it and all its neighbours have domains
   * that can be read at their crossings with `v`.
   */
  predicate ReadyAt(cw: Crossword, d: Domains, v: Var) {
    ListsNeighbors(cw, v) && v in d && forall n | n in Neighbors(cw, v) :: ArcReady(cw, d, v, n)
  }

  /** The inner counting loop: how many neighbour words differ from `word` at the crossing. */
  method CountConflicts(word: string, candidates: set<string>, i: nat, j: nat) returns (count: nat)
    requires i < |word| && forall u | u in candidates :: j < |u|
    ensures count == ConflictCount(word, candidates, i, j)
  {
    count := 0;
    var rest := candidates;
    while rest != {}
      invariant rest <= candidates
      invariant count == |set u | u in candidates - rest && !Agree(word, u, i, j)|
      decreases rest
    {
      var u :| u in rest;
      ghost var before := set u' | u' in candidates - rest && !Agree(word, u', i, j);
      if word[i] != u[j] {
        count := count + 1;
      }
      rest := rest - {u};
      ghost var after := set u' | u' in candidates - rest && !Agree(word, u', i, j);
      assert after == before + (if word[i] != u[j] then {u} else {});
    }
    assert candidates - rest == candidates;
  }

  /** `s` is in ascending order of `counts`. */
  predicate SortedBy(s: seq<string>, counts: map<string, nat>) {
    forall p, q | 0 <= p < q < |s| :: s[p] in counts && s[q] in counts && counts[s[p]] <= counts[s[q]]
  }

  /** Insert `w` into the sorted `s` before the first element whose count is not smaller. */
  function InsertByCount(w: string, s: seq<string>, counts: map<string, nat>): (r: seq<string>)
    requires w in counts && (forall x | x in s :: x in counts) && SortedBy(s, counts)
    ensures multiset(r) == multiset(s) + multiset{w}
    ensures SortedBy(r, counts)
  {
    if s == [] then [w]
    else if counts[w] <= counts[s[0]] then [w] + s
    else
      var tail := InsertByCount(w, s[1..], counts);
      assert s == [s[0]] + s[1..];
      HeadBelowTail(w, s, tail, counts);
      ConsSorted(s[0], tail, counts);
      [s[0]] + tail
  }

  /** The head of a sorted list is no larger than any element of a permutation of its tail plus a larger word. */
  lemma HeadBelowTail(w: string, s: seq<string>, tail: seq<string>, counts: map<string, nat>)
    requires s != [] && w in counts && (forall x | x in s :: x in counts) && SortedBy(s, counts)
    requires counts[s[0]] < counts[w]
    requires multiset(tail) == multiset(s[1..]) + multiset{w}
    ensures forall x | x in tail :: x in counts && counts[s[0]] <= counts[x]
  {
    forall x | x in tail
      ensures x in counts && counts[s[0]] <= counts[x]
    {
      assert x in multiset(tail);
      if x != w {
        assert x in multiset(s[1..]);
        var q :| 0 <= q < |s[1..]| && s[1..][q] == x;
        assert s[q + 1] == x;
      }
    }
  }

  /** Putting a word no larger than any element in front of a sorted list keeps it sorted. */
  lemma ConsSorted(h: string, tail: seq<string>, counts: map<string, nat>)
    requires h in counts && SortedBy(tail, counts)
    requires forall x | x in tail :: x in counts && counts[h] <= counts[x]
    ensures SortedBy([h] + tail, counts)
  {
    var r := [h] + tail;
    forall p, q | 0 <= p < q < |r|
      ensures r[p] in counts && r[q] in counts && counts[r[p]] <= counts[r[q]]
    {
      assert r[q] == tail[q - 1];
      if p > 0 {
        assert r[p] == tail[p - 1];
      }
    }
  }

  /** A stable insertion sort of `s` by ascending count (the `sorted` call of `order_domain_values`, keyed by count). */
  function SortByCount(s: seq<string>, counts: map<string, nat>): (r: seq<string>)
    requires forall x | x in s :: x in counts
    ensures multiset(r) == multiset(s)
    ensures SortedBy(r, counts)
  {
    if s == [] then []
    else
      var tail := SortByCount(s[1..], counts);
      assert s == [s[0]] + s[1..];
      PermutationInCounts(s[1..], tail, counts);
      InsertByCount(s[0], tail, counts)
  }

  /** Every element of a permutation of `s` is a key of `counts` when every element of `s` is. */
  lemma PermutationInCounts(s: seq<string>, r: seq<string>, counts: map<string, nat>)
    requires multiset(r) == multiset(s) && forall x | x in s :: x in counts
    ensures forall x | x in r :: x in counts
  {
    forall x | x in r
      ensures x in counts
    {
      assert x in multiset(r);
    }
  }

  lemma {:induction false} NoDuplicatesCount(s: seq<string>, x: string)
    requires NoDuplicates(s)
    ensures multiset(s)[x] <= 1
  {
    if s != [] {
      assert s == [s[0]] + s[1..];
      NoDuplicatesCount(s[1..], x);
      if x == s[0] {
        assert x !in s[1..];
      }
    }
  }

  /** A permutation of a list without repeats has no repeats. */
  lemma PermutationKeepsNoDuplicates(s: seq<string>, r: seq<string>)
    requires multiset(s) == multiset(r) && NoDuplicates(s)
    ensures NoDuplicates(r)
  {
    forall p, q | 0 <= p < q < |r|
      ensures r[p] != r[q]
    {
      var x := r[p];
      assert r == r[..q] + r[q..];
      assert multiset(r)[x] == multiset(r[..q])[x] + multiset(r[q..])[x];
      assert x in r[..q];
      NoDuplicatesCount(s, x);
    }
  }

  /**
   * The loop over the neighbours of `v` for one word: visit them in order,
   * skip the assigned ones, and add up the values each unassigned one would
   * lose. `counted` records whether an unassigned neighbour was visited,
   * which is when `order_domain_values` writes the running total into its dictionary.
   */
  method Eliminations(cw: Crossword, d: Domains, v: Var, a: Assignment, word: string)
    returns (eliminated: nat, counted: bool)
    requires ReadyAt(cw, d, v) && word in d[v]
    ensures counted <==> HasUnassignedNeighbor(cw, v, a)
    ensures eliminated == EliminationCount(cw, d, v, a, word)
  {
    var neighbors := NeighborList(cw, v);
    eliminated := 0;
    counted := false;
    var k := 0;
    while k < |neighbors|
      invariant 0 <= k <= |neighbors|
      invariant forall n | n in neighbors[..k] :: (v, n) in cw.overlaps && n in d
      invariant eliminated == EliminatedIn(cw, d, v, a, word, neighbors[..k])
      invariant counted <==> exists p | 0 <= p < k :: neighbors[p] !in a
    {
      var n := neighbors[k];
      assert n in neighbors && n in Neighbors(cw, v);
      assert neighbors[..k + 1][..k] == neighbors[..k];
      if n !in a {
        var (i, j) := cw.overlaps[(v, n)];
        var c := CountConflicts(word, d[n], i, j);
        eliminated := eliminated + c;
        counted := true;
      }
      k := k + 1;
    }
    assert neighbors[..k] == neighbors;
    assert counted <==> HasUnassignedNeighbor(cw, v, a) by {
      if HasUnassignedNeighbor(cw, v, a) {
        var n :| n in Neighbors(cw, v) && n !in a;
        assert n in neighbors;
      }
    }
  }

  /**
   * The body of the loop over `v`'s words in `order_domain_values`: the word
   * gets its elimination count in the dictionary when some neighbour is
   * unassigned (the last of `order_domain_values`'s writes inside the neighbour loop
   * holds the final total), and is appended to the insertion order the first
   * time it is written.
   */
  method ScoreWord(cw: Crossword, d: Domains, v: Var, a: Assignment, word: string,
                   wordDict: map<string, nat>, inserted: seq<string>)
    returns (wordDict': map<string, nat>, inserted': seq<string>)
    requires ReadyAt(cw, d, v) && word in d[v] && word !in wordDict
    ensures word in wordDict' <==> HasUnassignedNeighbor(cw, v, a)
    ensures word in wordDict' ==> wordDict'[word] == EliminationCount(cw, d, v, a, word)
    ensures forall w | w != word :: (w in wordDict' <==> w in wordDict)
    ensures forall w | w != word && w in wordDict :: wordDict'[w] == wordDict[w]
    ensures inserted' == inserted + (if word in wordDict' then [word] else [])
  {
    var eliminated, counted := Eliminations(cw, d, v, a, word);
    wordDict' := wordDict;
    inserted' := inserted;
    if counted {
      wordDict' := wordDict[word := eliminated];
      inserted' := inserted + [word];
    }
  }

  /**
   * The loop over `v`'s words in `order_domain_values`: the dictionary from
   * word to elimination count, and its keys in insertion order.
   */
  method ScoreWords(cw: Crossword, d: Domains, v: Var, a: Assignment)
    returns (wordDict: map<string, nat>, inserted: seq<string>)
    requires ReadyAt(cw, d, v)
    ensures NoDuplicates(inserted)
    ensures forall w :: w in inserted <==> w in wordDict
    ensures forall w :: w in wordDict <==> w in d[v] && HasUnassignedNeighbor(cw, v, a)
    ensures forall w | w in wordDict :: wordDict[w] == EliminationCount(cw, d, v, a, w)
  {
    wordDict := map[];
    inserted := [];
    var pending := d[v];
    while pending != {}
      invariant pending <= d[v]
      invariant NoDuplicates(inserted)
      invariant forall w :: w in inserted <==> w in wordDict
      invariant forall w :: w in wordDict <==> w in d[v] && w !in pending && HasUnassignedNeighbor(cw, v, a)
      invariant forall w | w in wordDict :: wordDict[w] == EliminationCount(cw, d, v, a, w)
      decreases pending
    {
      var word :| word in pending;
      pending := pending - {word};
      wordDict, inserted := ScoreWord(cw, d, v, a, word, wordDict, inserted);
    }
  }

  /**
   * `order_domain_values`: the words of `v`'s domain in ascending order of
   * how many values they rule out for `v`'s unassigned neighbours. A word's
   * count is recorded only while visiting an unassigned neighbour, so when
   * every neighbour is assigned (or there is none) the result is empty.
   */
  method OrderDomainValues(cw: Crossword, d: Domains, v: Var, a: Assignment) returns (ordered: seq<string>)
    requires ReadyAt(cw, d, v)
    ensures NoDuplicates(ordered)
    ensures forall w :: w in ordered <==> w in d[v] && HasUnassignedNeighbor(cw, v, a)
    ensures forall p, q | 0 <= p < q < |ordered| ::
              EliminationCount(cw, d, v, a, ordered[p]) <= EliminationCount(cw, d, v, a, ordered[q])
  {
    var wordDict, inserted := ScoreWords(cw, d, v, a);
    ordered := SortByCount(inserted, wordDict);
    PermutationKeepsNoDuplicates(inserted, ordered);
    assert forall w :: w in ordered <==> w in multiset(inserted);
  }
}

=== FILE: search.dfy ===
/**
 * The depth-first backtracking search and the solver's entry point.
 */
module Search {
  import opened Wrappers
  import opened Crosswords
  import opened Assignments
  import opened Domains
  import opened ArcConsistency
  import opened Heuristics

  /**
   * `c` solves the puzzle, keeps every entry of `a`, and takes every other
   * word from the domain of its slot.
   */
  predicate IsCompletion(cw: Crossword, d: Domains, a: Assignment, c: Assignment) {
    && IsSolution(cw, c)
    && Extends(c, a)
    && forall v | v in c && v !in a :: v in d && c[v] in d[v]
  }

  /** `a` has no completion at all. */
  ghost predicate Hopeless(cw: Crossword, d: Domains, a: Assignment) {
    forall c :: !IsCompletion(cw, d, a, c)
  }

  /** Every completion of `a` is a completion of `a` extended by its own word for the open slot `v`. */
  lemma CompletionFixesSlot(cw: Crossword, d: Domains, a: Assignment, v: Var)
    requires v in VarSet(cw) && v !in a
    ensures forall c | IsCompletion(cw, d, a, c) :: c[v] in d[v] && IsCompletion(cw, d, a[v := c[v]], c)
  {
  }

  /** If no word of `v`'s domain leads to a completion, `a` (which leaves `v` open) has none. */
  lemma ExhaustedMeansHopeless(cw: Crossword, d: Domains, a: Assignment, v: Var)
    requires v in VarSet(cw) && v !in a && v in d
    requires forall w | w in d[v] :: Hopeless(cw, d, a[v := w])
    ensures Hopeless(cw, d, a)
  {
    CompletionFixesSlot(cw, d, a, v);
  }

  /** A partial assignment with a completion is consistent: an inconsistent one is hopeless. */
  lemma InconsistentIsHopeless(cw: Crossword, d: Domains, a: Assignment)
    ensures !IsConsistent(cw, a) ==> Hopeless(cw, d, a)
  {
    forall c | IsCompletion(cw, d, a, c)
      ensures IsConsistent(cw, a)
    {
      ConsistentPrefix(cw, c, a);
    }
  }

  /** A completion of `a[v := w]`, with `w` from `v`'s domain, is a completion of `a`. */
  lemma ExtensionCompletes(cw: Crossword, d: Domains, a: Assignment, v: Var, w: string, c: Assignment)
    requires v !in a && v in d && w in d[v]
    requires IsCompletion(cw, d, a[v := w], c)
    ensures IsCompletion(cw, d, a, c)
  {
  }

  /**
   * `backtrack`: a complete assignment (by size) is returned as it is.
   * Otherwise the next slot is chosen by `SelectUnassignedVariable` and its
   * domain words are tried by `TryWords`.
   *
   * A result assigns every slot and extends `a`; unless it is `a` itself it
   * is consistent and takes its new words from the domains. `None` is
   * returned only when no such completion exists.
   */
  method Backtrack(cw: Crossword, d: Domains, a: Assignment) returns (r: Option<Assignment>)
    requires WellFormed(cw) && VarSet(cw) <= d.Keys && a.Keys <= VarSet(cw)
    ensures r.Some? ==> r.value.Keys == VarSet(cw) && Extends(r.value, a)
    ensures r.Some? ==> r.value == a || IsCompletion(cw, d, a, r.value)
    ensures r.Some? && IsConsistent(cw, a) ==> IsCompletion(cw, d, a, r.value)
    ensures r.None? ==> Hopeless(cw, d, a)
    decreases |VarSet(cw)| - |a|, 2
  {
    FullBySize(cw, a);
    if |a| == |VarSet(cw)| {
      return Some(a);
    }
    var next := SelectUnassignedVariable(cw, d, a);
    r := TryWords(cw, d, a, next.value);
  }

  /**
   * The loop of `backtrack` over the words of the open slot `v`, in any
   * order: the first result `TryWord` finds is returned.
   */
  method TryWords(cw: Crossword, d: Domains, a: Assignment, v: Var) returns (r: Option<Assignment>)
    requires WellFormed(cw) && VarSet(cw) <= d.Keys && a.Keys <= VarSet(cw)
    requires v in VarSet(cw) && v !in a
    ensures r.Some? ==> IsCompletion(cw, d, a, r.value)
    ensures r.None? ==> Hopeless(cw, d, a)
    decreases |VarSet(cw)| - |a|, 1
  {
    var tried: set<string> := {};
    var remaining := d[v];
    while remaining != {}
      invariant remaining <= d[v] && tried == d[v] - remaining
      invariant forall w | w in tried :: Hopeless(cw, d, a[v := w])
      decreases remaining
    {
      var w :| w in remaining;
      r := TryWord(cw, d, a, v, w);
      if r.Some? {
        return;
      }
      remaining := remaining - {w};
      tried := tried + {w};
    }
    assert tried == d[v];
    ExhaustedMeansHopeless(cw, d, a, v);
    return None;
  }

  /**
   * One turn of that loop: `a[v := w]` is searched recursively if it is
   * consistent; a result found is a completion of `a`, and `None` means
   * `a[v := w]` has no completion.
   */
  method TryWord(cw: Crossword, d: Domains, a: Assignment, v: Var, w: string) returns (r: Option<Assignment>)
    requires WellFormed(cw) && VarSet(cw) <= d.Keys && a.Keys <= VarSet(cw)
    requires v in VarSet(cw) && v !in a && w in d[v]
    ensures r.Some? ==> IsCompletion(cw, d, a, r.value)
    ensures r.None? ==> Hopeless(cw, d, a[v := w])
    decreases |VarSet(cw)| - |a|, 0
  {
    var extended := a[v := w];
    FullBySize(cw, extended);
    var ok := Consistent(cw, extended);
    InconsistentIsHopeless(cw, d, extended);
    if !ok {
      return None;
    }
    r := Backtrack(cw, d, extended);
    if r.Some? {
      ExtensionCompletes(cw, d, a, v, w, r.value);
    }
  }

  /** The puzzle can be filled with words of its vocabulary. */
  ghost predicate Solvable(cw: Crossword) {
    exists c :: IsSolution(cw, c) && forall v | v in c :: c[v] in cw.words
  }

  /**
   * `solve`: node consistency, then AC-3 (whose Boolean result is not
   * consulted), then backtracking from the empty assignment. `halted` is
   * true exactly when AC-3 finished within `fuel` iterations. When it
   * halts, the result is a solution drawn from the vocabulary, and it is
   * `None` exactly when the puzzle has no such solution.
   */
  method Solve(cw: Crossword, fuel: nat) returns (halted: bool, result: Option<Assignment>)
    requires WellFormed(cw)
    ensures halted <==> Ac3(cw, EnforceNodeConsistency(cw, InitialDomains(cw)), fuel).Finished?
    ensures !halted ==> result.None?
    ensures result.Some? ==> IsSolution(cw, result.value)
    ensures result.Some? ==> forall v | v in result.value :: result.value[v] in cw.words
    ensures halted ==> (result.None? <==> !Solvable(cw))
  {
    var d0 := InitialDomains(cw);
    var d1 := EnforceNodeConsistency(cw, d0);
    NodeConsistencyKeepsSolutions(cw, d0);
    NodeConsistentIsIndexable(cw, d1);
    var propagated := Ac3(cw, d1, fuel);
    if propagated.OutOfFuel? {
      return false, None;
    }
    var d2 := propagated.domains;
    var empty: Assignment := map[];
    result := Backtrack(cw, d2, empty);
    halted := true;
    if result.None? {
      forall c | IsSolution(cw, c) && forall v | v in c :: c[v] in cw.words
        ensures false
      {
        assert Within(c, d0);
        assert IsCompletion(cw, d2, empty, c);
      }
    } else {
      assert IsCompletion(cw, d2, empty, result.value);
    }
  }
}

=== FILE: square.dfy ===
/**
 * A worked instance of AC-3's divergence: a 2x2 grid with two across and two
 * down slots of length 2, each crossing two others, and the vocabulary
 * {"AA"}. Its domains are arc-consistent from the start, and `ac3()` on it
 * never returns.
 */
module SquareExample {
  import opened Crosswords
  import opened Assignments
  import opened Domains
  import opened ArcConsistency

  const Top := Var(0, 0, Across, 2)
  const Bottom := Var(1, 0, Across, 2)
  const Left := Var(0, 0, Down, 2)
  const Right := Var(0, 1, Down, 2)

  const Square := Crossword(2, 2, [Top, Bottom, Left, Right], {"AA"},
    map[(Top, Left) := (0, 0), (Left, Top) := (0, 0),
        (Top, Right) := (1, 0), (Right, Top) := (0, 1),
        (Bottom, Left) := (0, 1), (Left, Bottom) := (1, 0),
        (Bottom, Right) := (1, 1), (Right, Bottom) := (1, 1)],
    map[Top := [Left, Right], Bottom := [Left, Right], Left := [Top, Bottom], Right := [Top, Bottom]])

  const SquareDomains: Domains := map[Top := {"AA"}, Bottom := {"AA"}, Left := {"AA"}, Right := {"AA"}]

  /** The crossing arcs of the square, listed. */
  lemma SquareArcs(x: Var, y: Var)
    requires (x, y) in Square.overlaps
    ensures || (x, y) == (Top, Left) || (x, y) == (Left, Top)
            || (x, y) == (Top, Right) || (x, y) == (Right, Top)
            || (x, y) == (Bottom, Left) || (x, y) == (Left, Bottom)
            || (x, y) == (Bottom, Right) || (x, y) == (Right, Bottom)
  {
  }

  /** Every crossing of the square meets the crossing conditions of `WellFormed`. */
  lemma SquareArcShape(x: Var, y: Var)
    requires (x, y) in Square.overlaps
    ensures x in Square.variables && y in Square.variables && x != y
    ensures Square.overlaps[(x, y)].0 < x.length && Square.overlaps[(x, y)].1 < y.length
    ensures (y, x) in Square.overlaps
    ensures Square.overlaps[(y, x)] == (Square.overlaps[(x, y)].1, Square.overlaps[(x, y)].0)
  {
    SquareArcs(x, y);
  }

  /** Every crossing of the square can be read, and is consistent, in the square's domains. */
  lemma SquareArcReady(x: Var, y: Var)
    requires (x, y) in Square.overlaps
    ensures ArcReady(Square, SquareDomains, x, y)
    ensures ArcConsistent(Square, SquareDomains, x, y)
  {
    SquareArcs(x, y);
    var (i, j) := Square.overlaps[(x, y)];
    assert Agree("AA", "AA", i, j);
  }

  /** The square is a well-formed structure. */
  lemma SquareWellFormed()
    ensures WellFormed(Square)
  {
    SquareCrossingsShaped();
    SquareSlotsShaped();
  }

  /** The square's domains are readable and arc-consistent at every crossing. */
  lemma SquareDomainsReady()
    ensures Indexable(Square, SquareDomains) && AllArcsConsistent(Square, SquareDomains)
  {
    forall x, y | (x, y) in Square.overlaps
      ensures ArcReady(Square, SquareDomains, x, y) && ArcConsistent(Square, SquareDomains, x, y)
    {
      SquareArcReady(x, y);
    }
  }

  /** The crossing conditions of `WellFormed` for the square. */
  lemma SquareCrossingsShaped()
    ensures forall x, y | (x, y) in Square.overlaps ::
              && x in Square.variables && y in Square.variables && x != y
              && Square.overlaps[(x, y)].0 < x.length
              && Square.overlaps[(x, y)].1 < y.length
              && (y, x) in Square.overlaps
              && Square.overlaps[(y, x)] == (Square.overlaps[(x, y)].1, Square.overlaps[(x, y)].0)
  {
    forall x, y | (x, y) in Square.overlaps
      ensures && x in Square.variables && y in Square.variables && x != y
              && Square.overlaps[(x, y)].0 < x.length
              && Square.overlaps[(x, y)].1 < y.length
              && (y, x) in Square.overlaps
              && Square.overlaps[(y, x)] == (Square.overlaps[(x, y)].1, Square.overlaps[(x, y)].0)
    {
      SquareArcShape(x, y);
    }
  }

  /** The slot conditions of `WellFormed` for the square. */
  lemma SquareSlotsShaped()
    ensures NoDuplicates(Square.variables)
    ensures Square.neighborOrder.Keys == VarSet(Square)
    ensures forall x | x in Square.variables :: ListsNeighbors(Square, x) && InsideGrid(Square, x)
  {
    forall x | x in Square.variables
      ensures ListsNeighbors(Square, x) && InsideGrid(Square, x)
    {
      SquareListsNeighbors(x);
    }
  }

  /** The across slots of the square cross the two down slots, and the other way round. */
  lemma SquareNeighbors(x: Var)
    requires x in Square.variables
    ensures Neighbors(Square, x) == if x == Top || x == Bottom then {Left, Right} else {Top, Bottom}
  {
    var pair := if x == Top || x == Bottom then {Left, Right} else {Top, Bottom};
    forall z
      ensures z in Neighbors(Square, x) <==> z in pair
    {
      if z in Neighbors(Square, x) {
        SquareArcs(x, z);
      }
    }
  }

  /** Every slot of the square lies in the grid and its neighbour order lists its two neighbours. */
  lemma SquareListsNeighbors(x: Var)
    requires x in Square.variables
    ensures ListsNeighbors(Square, x) && InsideGrid(Square, x)
  {
    SquareNeighbors(x);
  }

  /** Each slot of the square crosses exactly two others. */
  lemma SquareDegrees()
    ensures NoDeadEnds(Square)
  {
    forall x | x in Square.variables
      ensures |Neighbors(Square, x)| == 2
    {
      SquareNeighbors(x);
    }
  }

  /** `ac3()` on the square never returns, whatever the fuel. */
  lemma SquareAc3Diverges(fuel: nat)
    ensures WellFormed(Square) && Indexable(Square, SquareDomains)
    ensures Ac3(Square, SquareDomains, fuel) == OutOfFuel(SquareDomains)
  {
    SquareWellFormed();
    SquareDomainsReady();
    SquareDegrees();
    assert (Top, Left) in Square.overlaps;
    Ac3DivergesWithoutDeadEnds(Square, SquareDomains, fuel);
  }
}

=== FILE: wrappers.dfy ===
/** Optional values: the model's counterpart of Python's `None`. */
module Wrappers {

  datatype Option<+T> = None | Some(value: T)
}
